=== FILE: README.md ===
# Finger-gesture classifier: a Dafny model

The finger-gesture demo counts raised fingers in a webcam picture. An external
landmark model finds the hand. It returns 21 ordered landmark positions per hand
(0 is the wrist, 4 the thumb tip, 8/12/16/20 the other four tips). The
repository's own logic decides, from those positions, which of the five fingers
are extended and counts them. It also frames the server's annotated frames as a
`multipart/x-mixed-replace` HTTP stream.

The classifier exists in four copies, which follow two rules:

- **Python rule.** `app.py`, `finger_detect.py` and
  `static/js/client_slide_implementation.js` use it. The thumb is extended iff
  `x[4] < x[3]`. Each other finger is extended iff `y[tip] < y[tip-2]`. All
  comparisons are strict.
- **Variant rule.** `static/js/client_side_implementation.js` uses it. The
  thumb is compared with landmark 1, `x[4] < x[1]`. The script's `mcp` array
  names that landmark the thumb's MCP, but in MediaPipe's numbering it is the
  thumb CMC; the anatomical thumb MCP is landmark 2. A null or short keypoint
  array counts 0, and a missing keypoint counts as "not extended".

The model has seven modules:

- `Optional` (`optional.dfy`): `Option`, for a JavaScript `null`/`undefined`
  or a Python `None`.
- `Landmarks` (`landmarks.dfy`): points, hands, the index constants, `CountTrue`
  and the reference rule `Extended` (thumb, index, middle, ring, pinky).
- `PyRule` (`py_rule.dfy`): the Python classifier. It builds `finger_states` as
  a 0/1 list by appending, then sums it. It also models the per-frame hand loop.
  `app.py` and `finger_detect.py` carry the same classifier and hand-loop text,
  so one definition models both. As a result, their counts agree on every
  input by construction.
- `SlideClient` (`slide_client.dfy`): the counter-based JavaScript copy, its
  first-hand selection, and the `requestAnimationFrame` chain that a rejected
  estimate ends.
- `SideClient` (`side_client.dfy`): the guarded JavaScript variant,
  `detectHands` with its stale-count behaviour, and the `startDetection`
  re-entry guard over sequences of clicks and settled model loads, as written
  and corrected.
- `Agreement` (`agreement.dfy`): how the copies relate, including a concrete
  hand on which the variant disagrees.
- `Stream` (`stream.dfy`): chunk framing in `generate`, per section 5.1.1 of
  RFC 2046, together with its inverse, and the emission guard over a run of
  loop passes.

The hand loops, tip loops and counter loops are modelled as accumulator
recursion in source order. `generate` is modelled over finitely many passes.
`startDetection` is split at its `await` into a click half and a settle half.

Three behaviours differ between the copies:

- The Python loops reset the count to 0 on a frame with no hand.
  `client_side_implementation.js` keeps the previous count
  (`SideClient.DetectHands`).
- `client_side_implementation.js` tests the thumb against index 1, not index 3
  (`SideClient.SideExtended`, `Agreement.ThumbRuleCounterexample`).
- When `estimateHands` rejects, `client_side_implementation.js` catches the
  error and schedules the next frame. `client_slide_implementation.js` has no
  try/catch, so the pass leaves the label as it was and the loop ends for good
  (`SlideClient.DetectHands`, `SlideClient.RejectionEndsChain`).

The `Agreement` lemmas compare the rules on identical landmark sequences. They
do not compare them on the same camera frame: the Python scripts mirror the
image before detection and the browser copies do not (see "## Left out").

## Model

| member | source | states |
|---|---|---|
| PyRule.AppendTips | app.py:81-85 | The tip loop keeps the entries already in the list and appends one 0/1 entry per tip, in order: 1 exactly when that tip is strictly above the landmark two indices before it. |
| PyRule.FingerStates | app.py:72-85 | `finger_states` has exactly 5 entries, each 0 or 1, thumb first. The thumb entry is 1 iff `x[4] < x[3]`. The entry for tip 8/12/16/20 is 1 iff `y[tip] < y[tip-2]`. Each entry agrees with the reference rule `Extended`. |
| PyRule.SumOfBits | app.py:87 | `sum` over a 0/1 list equals the number of flags the list encodes. |
| PyRule.FingerCount | app.py:87 | `finger_count` for one hand lies in [0,5] and equals the number of fingers the rule calls extended. |
| PyRule.HandLoop | app.py:66-87 | The hand loop overwrites the count on every iteration. With no hands, the count is the value it started with. Otherwise it is the last hand's count. |
| PyRule.FrameCount | finger_detect.py:31-54 | A frame's count lies in [0,5]. It is 0 when no hand is detected, and otherwise equals the classifier applied to the last hand. |
| PyRule.AllOpenIffFive | app.py:74-87 | The count is 5 exactly when the thumb tip is left of landmark 3 and every other tip is above its PIP. |
| PyRule.AllClosedIffZero | finger_detect.py:41-54 | The count is 0 exactly when every finger is on its closed side: `x[4] >= x[3]` and `y[tip] >= y[tip-2]` for every other tip. |
| PyRule.CollapsedHandCountsZero | app.py:75-85 | The comparisons are strict: a hand whose landmarks all coincide counts no finger. |
| PyRule.ThumbReadsOnlyX | app.py:75 | Two hands with the same x at landmarks 4 and 3 get the same thumb state, whatever else differs. |
| PyRule.ThumbIgnoresY | finger_detect.py:42 | Changing the y-coordinate of any landmark never changes the thumb state. |
| PyRule.FingersReadOnlyY | finger_detect.py:48-52 | Two hands with the same y-coordinates get the same index-to-pinky states, whatever their x-coordinates. |
| PyRule.LastHandWins | finger_detect.py:34-54 | Appending a hand to a frame's hand list makes the frame's count that hand's count, whatever came before. |
| SlideClient.CountFrom | static/js/client_slide_implementation.js:149-153 | The counter loop adds exactly the number of raised tips to the starting count, so it adds at most one per tip. |
| SlideClient.CountFingers | static/js/client_slide_implementation.js:140-156 | For a hand with at least 21 landmarks, `countFingers` lies in [0,5] and equals the number of fingers the Python rule calls extended. |
| SlideClient.DetectHands | static/js/client_slide_implementation.js:61-97 | A pass reschedules exactly when the detector exists and `estimateHands` resolves. It leaves the label unchanged exactly when it does not reschedule, which covers a missing detector and a rejection. "No hand detected" is shown exactly when the estimate resolves to no hands. Otherwise the count of `hands[0]` is shown, in [0,5]. |
| SlideClient.OnlyFirstHandCounts | static/js/client_slide_implementation.js:76-85 | Two hand lists with the same first hand produce the same pass result. |
| SlideClient.Passes | static/js/client_slide_implementation.js:61-97 | Over a run of estimates, the chain runs at least one pass when there is an estimate, and never more passes than there are estimates. Every pass but the last had a resolved estimate. If the chain stops early, its last pass had a rejected estimate. |
| SlideClient.Chain | static/js/client_slide_implementation.js:61-97 | The chain writes one label per pass it runs, in order. A pass leaves the label unchanged exactly when its estimate was rejected, and a chain that stops early ends with such a pass. |
| SlideClient.RejectionEndsChain | static/js/client_slide_implementation.js:66-96 | The first rejected estimate is the chain's last pass, and that pass leaves the label unchanged. |
| SlideClient.ChainRunsWhileResolved | static/js/client_slide_implementation.js:61-97 | While every estimate resolves, the chain runs one pass per estimate and each pass writes a label. |
| SideClient.CountFrom | static/js/client_side_implementation.js:155-163 | The `i = 1..4` loop adds exactly the number of variant-rule fingers from position `i` on that are extended. |
| SideClient.CountFingers | static/js/client_side_implementation.js:136-166 | A null array or one shorter than 21 gives 0. Otherwise the result lies in [0,5] and counts exactly the extended fingers, where a finger is extended when both keypoints exist and the strict test holds (thumb: `x[4] < x[1]`). |
| SideClient.DroppingKeypointNeverRaisesCount | static/js/client_side_implementation.js:146-162 | Making any keypoint undefined never raises the count, so a missing keypoint never increments it. |
| SideClient.MissingThumbKeypointIsClosed | static/js/client_side_implementation.js:146-152 | When the thumb tip or landmark 1 (the script's `mcp[0]`) is missing, the thumb is not extended and the count is at most 4. |
| SideClient.InitialIsConsistent | static/js/client_side_implementation.js:2-4 | The page starts with no model, not processing, count 0, no load in flight and no detection chain, so the invariants start from the declared state. |
| SideClient.BeginStart | static/js/client_side_implementation.js:35-51 | While processing, a click changes nothing. Otherwise the model is cleared. A missing library reports an error and issues no load; a present library issues one more load. `isProcessing` stays false either way, and model-set-iff-processing is preserved. |
| SideClient.FinishLoad | static/js/client_side_implementation.js:51-68 | When an awaited load settles, success sets the model and `isProcessing` and starts exactly one more detection chain. Failure changes only the status. The count is untouched. |
| SideClient.StartIsIdempotent | static/js/client_side_implementation.js:36 | After a load has succeeded, every further click changes nothing. |
| SideClient.Run | static/js/client_side_implementation.js:35-68 | Over any sequence of clicks and settled loads, model-set-iff-processing is preserved, the count is untouched and no chain is ever stopped. |
| SideClient.DoubleClickStartsTwoLoops | static/js/client_side_implementation.js:36-64 | Two clicks before the first load settles both pass the guard, and the two successful loads start two detection chains. |
| SideClient.GuardedBeginStart | static/js/client_side_implementation.js:35-51 | The corrected first half also refuses a click while a load is in flight. With no load in flight and `isProcessing` false it returns exactly what `BeginStart` returns. It never changes `loops` or `fingerCount`, and it keeps `Consistent`. |
| SideClient.GuardedRun | static/js/client_side_implementation.js:35-68 | With the corrected guard, every sequence of events keeps at most one chain running or pending, and a running chain implies processing. |
| SideClient.GuardedStartsAtMostOneLoop | static/js/client_side_implementation.js:36-64 | From the initial page, the corrected guard never lets more than one detection chain start. |
| SideClient.DetectHands | static/js/client_side_implementation.js:71-99 | Without `isProcessing` and a model, a pass returns at once and does not reschedule. Otherwise it reschedules. `fingerCount` changes only when a first hand exists, and then becomes `countFingers(hands[0].keypoints)` and is shown. With no first hand the page is unchanged: "No hand detected" is shown when detection returned, and the label is left alone when it threw. A pass never changes `loops` or `pendingLoads`. A count in [0,5] stays in [0,5]. |
| SideClient.OnlyFirstHandCounts | static/js/client_side_implementation.js:81-88 | Two hand arrays with the same first hand produce the same pass result. |
| Agreement.SlideAgreesWithPython | static/js/client_slide_implementation.js:140-156 | For every hand of at least 21 landmarks, the JavaScript counter copy returns the same count as `sum(finger_states)`. |
| Agreement.SideAgreesIffThumbTestsAgree | static/js/client_side_implementation.js:140-162 | On a hand with every keypoint present, the variant's four finger states equal the rule's. Its count equals the other copies' count exactly when `x[4] < x[1]` and `x[4] < x[3]` agree. |
| Agreement.ThumbRuleCounterexample | static/js/client_side_implementation.js:150 | On a concrete hand with `x[1] <= x[4] < x[3]` and every finger flat, the Python and slide copies count 1 and the variant counts 0. |
| Stream.Chunk | app.py:110-111 | A chunk is exactly the part header, then the payload unchanged, then CRLF. The part header is `--frame` CRLF, then `Content-Type: image/jpeg`, then CRLF CRLF. The chunk is 39 bytes longer than the payload, and its first line is the delimiter for the boundary the response declares. |
| Stream.ParseChunkInvertsChunk | app.py:110-111 | Parsing a framed chunk recovers the payload unchanged. |
| Stream.ChunkInvertsParseChunk | app.py:110-111 | Any byte string that parses is exactly the chunk of the payload it parses to. |
| Stream.Tick | app.py:103-111 | A pass emits a chunk exactly when a frame has been published and encoding succeeds. The emitted chunk parses back to the encoded image. |
| Stream.Generate | app.py:100-112 | Over a run of passes, `generate` yields one chunk per successfully encoded image, in order, each parsing back to that image, and never more chunks than passes. |
| Stream.NothingBeforeFirstFrame | app.py:104-105 | While no frame has been published, nothing is yielded. |
| Stream.OneChunkPerPass | app.py:102-112 | With a frame published and encoding never failing, every pass yields exactly one chunk. |

## Left out

- Camera acquisition (`cv2.VideoCapture`, `getUserMedia`, `initCamera`, `setupCamera`) and landmark detection (`hands.process`, `createDetector`, `estimateHands`) are external I/O and opaque models. Their results are parameters: a hand list, an `Estimate`, and the `loaded` flag of a `Settle` event.
- Drawing and overlays (`draw_landmarks`, `putText`, `drawLandmarks`, `drawHandLandmarks`, canvas calls, the placeholder frame in the no-camera branch of `detect_fingers`) produce pixels through foreign libraries.
- JPEG encoding (`cv2.imencode`) is a foreign call. It is the parameter `encode`, a function that may return no payload.
- The shared `output_frame` slot and its lock, with the latest-wins publication they give, exist for cross-thread publication. That is concurrency, so they are not modelled. `Stream` takes the slot's observed value per pass as input.
- Mirroring (`cv2.flip(image, 1)` at app.py:60 and finger_detect.py:27) is an image operation and is not modelled. The Python scripts classify landmarks of the mirrored frame, while the browser copies classify the unmirrored video. So on one camera frame, `x[4] < x[3]` refers to opposite physical sides in the two. The `Agreement` lemmas compare the rules on identical landmark sequences, not on the same camera frame.
- Timing and most of the loop lifecycle are not modelled: `time.sleep` pacing, frame timing under `requestAnimationFrame`, `waitKey` quit handling, camera read failure ending the loop, the infinite loops, and `main`/`initializeDetector` in the slide client. `main` starts `SlideClient.Chain` only after the detector has loaded. `Stream.Generate` and `SlideClient.Chain` cover finitely many passes, and `rescheduled` records whether another pass is requested.
- Flask routes, templates and process configuration (port, host, debug) are not modelled.
- Floating-point specifics (NaN, negative zero) are not modelled. Coordinates are `real` because only strict `<` is applied to them. The landmark model's `z` coordinate is never read.
- SideClient.DetectHands: `drawLandmarks` runs before `countFingers`. It reads `point.x` of every entry, so an explicitly `undefined` entry would throw there and leave the count unchanged. The model treats drawing as never throwing, so `countFingers` always runs on the first hand.
- SlideClient.DetectHands: indexing has no guard, so the first hand must carry 21 landmarks (a precondition). A `null` hand array is not modelled, since the detector returns an array.
- SideClient.Run: a detection chain is counted when `detectHands()` is first called and is never counted as ending. Once `isProcessing` is true, `client_side_implementation.js` never resets it, so the guard at line 36 keeps `model = null` (line 42) from running again, and a chain never stops by itself; the frames inside a chain are modelled one pass at a time by `SideClient.DetectHands`.
- PyRule.FrameCount: Python indexes the landmarks without a guard, so every detected hand must carry 21 landmarks (a precondition). `multi_hand_landmarks` being `None` and being empty are both the empty sequence.

## Findings

| source | as written | input that shows it | evidently intended | confidence | as-written member | corrected member |
|---|---|---|---|---|---|---|
| static/js/client_side_implementation.js:36-64 | `startDetection` sets `isProcessing` only after the `await` on `createDetector`, so its guard admits a second start while the first load is in flight | Click start twice before the model loads; both loads succeed | A start is refused while a load is in flight, so at most one `detectHands` chain runs | medium, not executed | SideClient.DoubleClickStartsTwoLoops | SideClient.GuardedStartsAtMostOneLoop |

=== FILE: agreement.dfy ===
/**
  How the repository's classifier copies relate: the Python scripts and
  `client_slide_implementation.js` implement one rule, while
  `client_side_implementation.js` tests the thumb against landmark 1 (the
  script's `mcp[0]`) and so can disagree with them.
 */
module Agreement {
  import opened Optional
  import opened Landmarks
  import PyRule
  import SlideClient
  import SideClient

  /** A hand as the browser model returns it: every keypoint present. */
  function Lift(hand: Hand): (kps: seq<Option<Point>>)
    ensures |kps| == |hand|
    ensures forall i :: 0 <= i < |hand| ==> kps[i] == Some(hand[i])
  {
    seq(|hand|, i requires 0 <= i < |hand| => Some(hand[i]))
  }

  /** The counter-based browser copy counts exactly what `sum(finger_states)` counts. */
  lemma SlideAgreesWithPython(hand: Hand)
    requires Complete(hand)
    ensures SlideClient.CountFingers(hand) == PyRule.FingerCount(hand)
  {
  }

  /** On a complete hand the variant agrees with the other copies on the four
      fingers, and on the count exactly when the landmark-1 test and the IP test
      classify the thumb alike. */
  lemma SideAgreesIffThumbTestsAgree(hand: Hand)
    requires Complete(hand)
    ensures SideClient.SideExtended(Lift(hand))[1..] == Extended(hand)[1..]
    ensures SideClient.CountFingers(Some(Lift(hand))) == SlideClient.CountFingers(hand) <==>
              (hand[ThumbTip].x < hand[ThumbMcp].x <==> hand[ThumbTip].x < hand[ThumbIp].x)
  {
  }

  /** A hand whose thumb tip lies left of its IP joint but right of landmark 1 (the script's `mcp[0]`). */
  const ThumbBetweenJoints: Hand :=
    seq(HandSize, i => if i == ThumbIp then Point(2.0, 0.0)
                       else if i == ThumbTip then Point(1.0, 0.0)
                       else Point(0.0, 0.0))

  /** The variant can disagree: on this hand the Python and slide copies count
      the thumb and the guarded copy does not. */
  lemma ThumbRuleCounterexample()
    ensures Complete(ThumbBetweenJoints)
    ensures PyRule.FingerCount(ThumbBetweenJoints) == 1
    ensures SlideClient.CountFingers(ThumbBetweenJoints) == 1
    ensures SideClient.CountFingers(Some(Lift(ThumbBetweenJoints))) == 0
  {
  }
}

=== FILE: landmarks.dfy ===
/**
  Hand landmarks as delivered by the external landmark model, the index
  constants of the 21-point hand skeleton, and the finger-extension rule that
  the Python scripts and `client_slide_implementation.js` implement.
 */
module Landmarks {

  /** A landmark in image coordinates (normalised in Python, pixels in the
      browser); `y` grows downwards, so a smaller `y` is higher on screen.
      The model's `z` is never read. */
  datatype Point = Point(x: real, y: real)

  /** The ordered landmarks of one detected hand; index 0 is the wrist. */
  type Hand = seq<Point>

  const HandSize: nat := 21
  /** Landmark 1 is MediaPipe's THUMB_CMC; `client_side_implementation.js`
      lists it as the thumb's entry in its `mcp` array, and the name follows
      that script. The anatomical thumb MCP is landmark 2, which no copy reads. */
  const ThumbMcp: nat := 1
  const ThumbIp: nat := 3
  const ThumbTip: nat := 4
  /** Tips of the index, middle, ring and pinky fingers. */
  const FingerTips: seq<nat> := [8, 12, 16, 20]

  /** The hand has every landmark the classifiers index. */
  predicate Complete(hand: Hand) {
    |hand| >= HandSize
  }

  /** Every tip in `tips` and the joint two steps closer to the wrist are landmarks of a hand of size `n`. */
  predicate TipsInRange(n: nat, tips: seq<nat>) {
    forall k :: 0 <= k < |tips| ==> 2 <= tips[k] < n
  }

  lemma FingerTipsInRange(hand: Hand)
    requires Complete(hand)
    ensures TipsInRange(|hand|, FingerTips)
  {
  }

  /** The thumb tip lies strictly left of the thumb's IP joint. */
  predicate ThumbOpen(hand: Hand)
    requires Complete(hand)
  {
    hand[ThumbTip].x < hand[ThumbIp].x
  }

  /** The tip lies strictly above the PIP joint, two landmarks closer to the wrist. */
  predicate TipRaised(hand: Hand, tip: nat)
    requires 2 <= tip < |hand|
  {
    hand[tip].y < hand[tip - 2].y
  }

  /** For each tip of `tips`, in order, whether it is raised. */
  function Raised(hand: Hand, tips: seq<nat>): seq<bool>
    requires TipsInRange(|hand|, tips)
  {
    seq(|tips|, k requires 0 <= k < |tips| => TipRaised(hand, tips[k]))
  }

  /** The rule the Python scripts and `client_slide_implementation.js` implement:
      thumb, index, middle, ring, pinky. */
  function Extended(hand: Hand): seq<bool>
    requires Complete(hand)
  {
    FingerTipsInRange(hand);
    [ThumbOpen(hand)] + Raised(hand, FingerTips)
  }

  /** The number of `true` entries of `s`. */
  function CountTrue(s: seq<bool>): (n: nat)
    ensures n <= |s|
    ensures n == 0 <==> forall i :: 0 <= i < |s| ==> !s[i]
    ensures n == |s| <==> forall i :: 0 <= i < |s| ==> s[i]
  {
    if s == [] then 0
    else
      assert forall i :: 1 <= i < |s| ==> s[1..][i - 1] == s[i];
      (if s[0] then 1 else 0) + CountTrue(s[1..])
  }
}

=== FILE: optional.dfy ===
/** A value that may be absent: a JavaScript `null`/`undefined`, or a Python `None`. */
module Optional {

  datatype Option<+T> = None | Some(value: T)
}

=== FILE: py_rule.dfy ===
/**
  The server-side classifier of `app.py` (`detect_fingers`) and of the desktop
  script `finger_detect.py`. Both files carry the same classifier text and the
  same per-frame hand loop, so one definition models both.

  The classifier builds `finger_states` as a list of 0/1 integers, thumb first,
  appending one entry per tip of `finger_tips`, and counts with `sum`.
 */
module PyRule {
  import opened Landmarks

  /** The integer appended to `finger_states` for one comparison. */
  function Bit(b: bool): int {
    if b then 1 else 0
  }

  /** The `for tip in finger_tips` loop: appends, in order, one bit per tip to `acc`. */
  function AppendTips(hand: Hand, tips: seq<nat>, acc: seq<int>): (states: seq<int>)
    requires TipsInRange(|hand|, tips)
    ensures |states| == |acc| + |tips|
    ensures states[..|acc|] == acc
    ensures forall k :: 0 <= k < |tips| ==> states[|acc| + k] == Bit(TipRaised(hand, tips[k]))
    decreases |tips|
  {
    if tips == [] then acc
    else AppendTips(hand, tips[1..], acc + [Bit(TipRaised(hand, tips[0]))])
  }

  /** `finger_states` for one hand: five 0/1 entries, thumb first, each 1
      exactly when `Extended` calls that finger extended. */
  function FingerStates(hand: Hand): (states: seq<int>)
    requires Complete(hand)
    ensures |states| == 5
    ensures forall i :: 0 <= i < 5 ==> states[i] == 0 || states[i] == 1
    ensures states[0] == 1 <==> hand[ThumbTip].x < hand[ThumbIp].x
    ensures forall k :: 0 <= k < 4 ==>
              (states[k + 1] == 1 <==> hand[FingerTips[k]].y < hand[FingerTips[k] - 2].y)
    ensures forall i :: 0 <= i < 5 ==> (states[i] == 1 <==> Extended(hand)[i])
  {
    FingerTipsInRange(hand);
    var states := AppendTips(hand, FingerTips, [Bit(ThumbOpen(hand))]);
    assert states[..1] == [Bit(ThumbOpen(hand))];
    assert states[0] == states[..1][0];
    states
  }

  /** Python's `sum` over a list of integers. */
  function Sum(s: seq<int>): int {
    if s == [] then 0 else s[0] + Sum(s[1..])
  }

  /** Summing bits counts the flags they encode. */
  lemma {:induction false} SumOfBits(s: seq<int>, flags: seq<bool>)
    requires |s| == |flags|
    requires forall i :: 0 <= i < |s| ==> s[i] == Bit(flags[i])
    ensures Sum(s) == CountTrue(flags)
  {
    if s != [] {
      SumOfBits(s[1..], flags[1..]);
    }
  }

  /** `finger_count = sum(finger_states)` for one hand. */
  function FingerCount(hand: Hand): (n: int)
    requires Complete(hand)
    ensures 0 <= n <= 5
    ensures n == CountTrue(Extended(hand))
  {
    var states := FingerStates(hand);
    SumOfBits(states, Extended(hand));
    Sum(states)
  }

  /** The `for hand_landmarks in results.multi_hand_landmarks` loop: every
      iteration overwrites `finger_count` with the current hand's count. */
  function HandLoop(hands: seq<Hand>, count: int): (n: int)
    requires forall i :: 0 <= i < |hands| ==> Complete(hands[i])
    ensures hands == [] ==> n == count
    ensures hands != [] ==> n == FingerCount(hands[|hands| - 1])
    decreases |hands|
  {
    if hands == [] then count else HandLoop(hands[1..], FingerCount(hands[0]))
  }

  /** The count a frame ends with: `finger_count = 0`, then the hand loop,
      which runs only when some hand was detected. */
  function FrameCount(hands: seq<Hand>): (n: int)
    requires forall i :: 0 <= i < |hands| ==> Complete(hands[i])
    ensures 0 <= n <= 5
    ensures hands == [] ==> n == 0
    ensures hands != [] ==> n == FingerCount(hands[|hands| - 1])
  {
    HandLoop(hands, 0)
  }

  /** The frame count is five exactly when every finger is on its extended side. */
  lemma AllOpenIffFive(hand: Hand)
    requires Complete(hand)
    ensures FingerCount(hand) == 5 <==>
              hand[ThumbTip].x < hand[ThumbIp].x &&
              forall k :: 0 <= k < 4 ==> hand[FingerTips[k]].y < hand[FingerTips[k] - 2].y
  {
  }

  /** The count is zero exactly when every finger is on its closed side. */
  lemma AllClosedIffZero(hand: Hand)
    requires Complete(hand)
    ensures FingerCount(hand) == 0 <==>
              hand[ThumbTip].x >= hand[ThumbIp].x &&
              forall k :: 0 <= k < 4 ==> hand[FingerTips[k]].y >= hand[FingerTips[k] - 2].y
  {
  }

  /** Comparisons are strict: a hand whose landmarks all coincide counts no finger. */
  lemma CollapsedHandCountsZero(hand: Hand)
    requires Complete(hand)
    requires forall i :: 0 <= i < |hand| ==> hand[i] == hand[0]
    ensures FingerCount(hand) == 0
  {
  }

  /** The thumb's state reads only the x-coordinates of landmarks 4 and 3:
      hands that agree there classify the thumb alike, whatever else differs. */
  lemma ThumbReadsOnlyX(hand: Hand, other: Hand)
    requires Complete(hand) && Complete(other)
    requires hand[ThumbTip].x == other[ThumbTip].x && hand[ThumbIp].x == other[ThumbIp].x
    ensures FingerStates(hand)[0] == FingerStates(other)[0]
  {
  }

  /** Moving any one landmark vertically never changes the thumb's state. */
  lemma ThumbIgnoresY(hand: Hand, i: nat, y: real)
    requires Complete(hand) && i < |hand|
    ensures FingerStates(hand[i := Point(hand[i].x, y)])[0] == FingerStates(hand)[0]
  {
  }

  /** The four non-thumb states read only y-coordinates: hands that agree on
      the y of all 21 landmarks classify the index to pinky fingers alike. */
  lemma FingersReadOnlyY(hand: Hand, other: Hand)
    requires Complete(hand) && Complete(other)
    requires forall i :: 0 <= i < HandSize ==> hand[i].y == other[i].y
    ensures FingerStates(hand)[1..] == FingerStates(other)[1..]
  {
  }

  /** With several hands in a frame, appending one more hand makes the frame's
      count that hand's count, whatever came before: the last hand wins. */
  lemma {:induction false} LastHandWins(hands: seq<Hand>, hand: Hand)
    requires forall i :: 0 <= i < |hands| ==> Complete(hands[i])
    requires Complete(hand)
    ensures FrameCount(hands + [hand]) == FingerCount(hand)
  {
  }
}

=== FILE: side_client.dfy ===
/**
  The browser client served as `static/js/client_side_implementation.js`:
  its guarded `countFingers` variant, the first-hand selection of
  `detectHands`, and the `startDetection` re-entry guard.

  A keypoint array may be `null` or shorter than 21, and any entry may be
  `undefined`; both are modelled with `Option`.
 */
module SideClient {
  import opened Optional
  import opened Landmarks

  /** `hand.keypoints`: possibly absent, with possibly absent entries. */
  type Keypoints = Option<seq<Option<Point>>>

  /** `fingertips`: thumb, index, middle, ring, pinky. */
  const Fingertips: seq<nat> := [4, 8, 12, 16, 20]
  /** `mcp`: the metacarpophalangeal joints; only the thumb's entry is read. */
  const Mcp: seq<nat> := [1, 5, 9, 13, 17]

  /** Both keypoints exist and the first lies strictly before the second,
      left of it when `horizontal`, above it otherwise. */
  predicate Before(kps: seq<Option<Point>>, a: nat, b: nat, horizontal: bool)
    requires a < |kps| && b < |kps|
  {
    && kps[a].Some?
    && kps[b].Some?
    && (if horizontal then kps[a].value.x < kps[b].value.x else kps[a].value.y < kps[b].value.y)
  }

  /** The variant rule: the thumb tip is compared with landmark 1, the `mcp` entry (MediaPipe's THUMB_CMC),
      each other tip with its PIP joint, and a missing keypoint means "not extended". */
  function SideExtended(kps: seq<Option<Point>>): seq<bool>
    requires |kps| >= HandSize
  {
    [ Before(kps, 4, 1, true),
      Before(kps, 8, 6, false),
      Before(kps, 12, 10, false),
      Before(kps, 16, 14, false),
      Before(kps, 20, 18, false) ]
  }

  /** The `for (let i = 1; i < 5; i++)` loop over `fingertips[i]` and its PIP
      `fingertips[i] - 2`, adding one to `extendedFingers` per raised finger. */
  function CountFrom(kps: seq<Option<Point>>, i: nat, extendedFingers: nat): (n: nat)
    requires |kps| >= HandSize
    requires 1 <= i <= 5
    ensures n == extendedFingers + CountTrue(SideExtended(kps)[i..])
    decreases 5 - i
  {
    if i == 5 then extendedFingers
    else
      var tip := Fingertips[i];
      assert SideExtended(kps)[i] == Before(kps, tip, tip - 2, false);
      assert SideExtended(kps)[i..][1..] == SideExtended(kps)[i + 1..];
      CountFrom(kps, i + 1, if Before(kps, tip, tip - 2, false) then extendedFingers + 1 else extendedFingers)
  }

  /** `countFingers(keypoints)`: 0 for a missing or short array, otherwise
      the number of fingers the variant rule calls extended. */
  function CountFingers(keypoints: Keypoints): (n: nat)
    ensures n <= 5
    ensures keypoints.None? || |keypoints.value| < HandSize ==> n == 0
    ensures keypoints.Some? && |keypoints.value| >= HandSize ==>
              n == CountTrue(SideExtended(keypoints.value))
  {
    match keypoints
    case None => 0
    case Some(kps) =>
      if |kps| < HandSize then 0
      else
        var thumb := Before(kps, Fingertips[0], Mcp[0], true);
        CountFrom(kps, 1, if thumb then 1 else 0)
  }

  /** A missing keypoint never adds to the count: dropping any keypoint of a
      hand can only lower or keep its count. */
  lemma DroppingKeypointNeverRaisesCount(kps: seq<Option<Point>>, j: nat)
    requires j < |kps|
    ensures CountFingers(Some(kps[j := None])) <= CountFingers(Some(kps))
  {
  }

  /** A thumb whose tip keypoint or landmark-1 keypoint (the script's `mcp[0]`)
      is missing is never counted, wherever the other keypoints lie. */
  lemma MissingThumbKeypointIsClosed(kps: seq<Option<Point>>)
    requires |kps| >= HandSize
    requires kps[4].None? || kps[1].None?
    ensures !SideExtended(kps)[0]
    ensures CountFingers(Some(kps)) <= 4
  {
  }

  /** The page's state between events: `isProcessing`, whether `model` is set,
      the last `fingerCount`, how many `createDetector` loads are still
      awaited, and how many `detectHands` / `requestAnimationFrame` chains run. */
  datatype Page = Page(isProcessing: bool, modelLoaded: bool, fingerCount: int, pendingLoads: nat, loops: nat)

  /** The page as the script declares it. */
  const Initial: Page := Page(false, false, 0, 0, 0)

  /** `model` is set exactly while detection is running. */
  predicate Consistent(page: Page) {
    page.modelLoaded == page.isProcessing
  }

  /** The script starts consistent, with a count in range and nothing running. */
  lemma InitialIsConsistent()
    ensures Consistent(Initial) && 0 <= Initial.fingerCount <= 5
    ensures Initial.pendingLoads == 0 && Initial.loops == 0 && !Initial.isProcessing
  {
  }

  /** The final text of the `status` element after a step of `startDetection`. */
  datatype Status = StatusUnchanged | Loading | LibraryNotLoaded | ModelLoadError | Processing

  datatype Started = Started(page: Page, status: Status)

  /** The synchronous half of `startDetection`, up to the `await` on
      `createDetector`: the `isProcessing` guard, clearing `model`, the
      library check, and issuing the load. Nothing here sets `isProcessing`. */
  function BeginStart(page: Page, libraryPresent: bool): (r: Started)
    ensures page.isProcessing ==> r == Started(page, StatusUnchanged)
    ensures !page.isProcessing ==> !r.page.isProcessing && !r.page.modelLoaded
    ensures !page.isProcessing ==> r.status == (if libraryPresent then Loading else LibraryNotLoaded)
    ensures r.page.pendingLoads == page.pendingLoads + (if !page.isProcessing && libraryPresent then 1 else 0)
    ensures r.page.loops == page.loops && r.page.fingerCount == page.fingerCount
    ensures Consistent(page) ==> Consistent(r.page)
  {
    if page.isProcessing then Started(page, StatusUnchanged)
    else
      var cleared := page.(modelLoaded := false);
      if !libraryPresent then Started(cleared, LibraryNotLoaded)
      else Started(cleared.(pendingLoads := page.pendingLoads + 1), Loading)
  }

  /** The half of `startDetection` after one awaited `createDetector` settles:
      on success `model` is set, `isProcessing` becomes true and `detectHands()`
      starts one more detection chain; on failure only the status changes. */
  function FinishLoad(page: Page, loaded: bool): (r: Started)
    requires page.pendingLoads > 0
    ensures r.page.pendingLoads == page.pendingLoads - 1
    ensures r.page.loops == page.loops + (if loaded then 1 else 0)
    ensures loaded ==> r.page.isProcessing && r.page.modelLoaded && r.status == Processing
    ensures !loaded ==> r.page.isProcessing == page.isProcessing && r.page.modelLoaded == page.modelLoaded
                        && r.status == ModelLoadError
    ensures r.page.fingerCount == page.fingerCount
    ensures Consistent(page) ==> Consistent(r.page)
  {
    var settled := page.(pendingLoads := page.pendingLoads - 1);
    if loaded then Started(settled.(modelLoaded := true, isProcessing := true, loops := page.loops + 1), Processing)
    else Started(settled, ModelLoadError)
  }

  /** Once a load has succeeded, further clicks of the start button change nothing. */
  lemma StartIsIdempotent(page: Page, libraryPresent: bool)
    requires page.pendingLoads > 0
    ensures var running := FinishLoad(page, true).page;
            BeginStart(running, libraryPresent) == Started(running, StatusUnchanged)
  {
  }

  /** What reaches the page: a click of the start button, or one awaited load settling. */
  datatype Event = Click(libraryPresent: bool) | Settle(loaded: bool)

  /** One event; a settlement with no load in flight cannot happen and is ignored. */
  function Step(page: Page, event: Event): Page {
    match event
    case Click(libraryPresent) => BeginStart(page, libraryPresent).page
    case Settle(loaded) => if page.pendingLoads > 0 then FinishLoad(page, loaded).page else page
  }

  /** The page after a sequence of events, as the script is written. */
  function Run(page: Page, events: seq<Event>): (r: Page)
    ensures Consistent(page) ==> Consistent(r)
    ensures r.loops >= page.loops && r.fingerCount == page.fingerCount
    decreases |events|
  {
    if events == [] then page else Run(Step(page, events[0]), events[1..])
  }

  /** The guard does not stop a second click while the model is loading:
      both loads pass it, and both start a detection chain. */
  lemma DoubleClickStartsTwoLoops()
    ensures Run(Initial, [Click(true), Click(true), Settle(true), Settle(true)]).loops == 2
  {
  }

  /** `startDetection`'s first half with the re-entry guard the script
      evidently intends: a start is also refused while a load is in flight. */
  function GuardedBeginStart(page: Page, libraryPresent: bool): (r: Started)
    ensures page.isProcessing || page.pendingLoads > 0 ==> r == Started(page, StatusUnchanged)
    ensures !page.isProcessing && page.pendingLoads == 0 ==>
              r.page.pendingLoads == (if libraryPresent then 1 else 0) && !r.page.isProcessing
    ensures !page.isProcessing && page.pendingLoads == 0 ==> r == BeginStart(page, libraryPresent)
    ensures r.page.loops == page.loops && r.page.fingerCount == page.fingerCount
    ensures Consistent(page) ==> Consistent(r.page)
  {
    if page.pendingLoads > 0 then Started(page, StatusUnchanged) else BeginStart(page, libraryPresent)
  }

  /** At most one detection chain is, or is about to be, running, and a
      running chain means the page is processing. */
  predicate AtMostOneStart(page: Page) {
    page.loops + page.pendingLoads <= 1 && (page.loops > 0 ==> page.isProcessing)
  }

  function GuardedStep(page: Page, event: Event): Page {
    match event
    case Click(libraryPresent) => GuardedBeginStart(page, libraryPresent).page
    case Settle(loaded) => if page.pendingLoads > 0 then FinishLoad(page, loaded).page else page
  }

  /** The page after a sequence of events, with the corrected guard. */
  function GuardedRun(page: Page, events: seq<Event>): (r: Page)
    ensures Consistent(page) ==> Consistent(r)
    ensures AtMostOneStart(page) ==> AtMostOneStart(r)
    ensures r.loops >= page.loops && r.fingerCount == page.fingerCount
    decreases |events|
  {
    if events == [] then page else GuardedRun(GuardedStep(page, events[0]), events[1..])
  }

  /** With the corrected guard, no sequence of clicks and loads ever starts
      more than one detection chain. */
  lemma GuardedStartsAtMostOneLoop(events: seq<Event>)
    ensures GuardedRun(Initial, events).loops <= 1
    ensures Consistent(GuardedRun(Initial, events))
  {
  }

  /** One hand as returned by `estimateHands`. */
  datatype SideHand = SideHand(keypoints: Keypoints)

  /** `estimateHands` either throws or returns a possibly-null array of hands. */
  datatype Estimate = Threw | Returned(hands: Option<seq<SideHand>>)

  /** The final text of the `finger-count` element after one pass. */
  datatype Label = LabelUnchanged | ShowCount(count: int) | ShowNoHand

  datatype Pass = Pass(page: Page, text: Label, rescheduled: bool)

  /** The first detected hand, if `hands && hands.length > 0`. */
  function FirstHand(estimate: Estimate): Option<SideHand> {
    if estimate.Returned? && estimate.hands.Some? && |estimate.hands.value| > 0
    then Some(estimate.hands.value[0])
    else None
  }

  /** One pass of `detectHands`: returns at once unless processing with a
      model; classifies only `hands[0]`; with no hand, or when detection
      throws, `fingerCount` keeps its previous value. */
  function DetectHands(page: Page, estimate: Estimate): (r: Pass)
    ensures !page.isProcessing || !page.modelLoaded ==> r == Pass(page, LabelUnchanged, false)
    ensures page.isProcessing && page.modelLoaded ==> r.rescheduled
    ensures r.page.isProcessing == page.isProcessing && r.page.modelLoaded == page.modelLoaded
    ensures r.page.fingerCount != page.fingerCount ==> FirstHand(estimate).Some?
    ensures r.page.isProcessing && r.page.modelLoaded && FirstHand(estimate).Some? ==>
              r.page.fingerCount == CountFingers(FirstHand(estimate).value.keypoints)
              && r.text == ShowCount(r.page.fingerCount)
    ensures page.isProcessing && page.modelLoaded && FirstHand(estimate).None? ==>
              r.page == page && r.text == (if estimate.Threw? then LabelUnchanged else ShowNoHand)
    ensures r.page.loops == page.loops && r.page.pendingLoads == page.pendingLoads
    ensures 0 <= page.fingerCount <= 5 ==> 0 <= r.page.fingerCount <= 5
  {
    if !page.isProcessing || !page.modelLoaded then Pass(page, LabelUnchanged, false)
    else
      match estimate
      case Threw => Pass(page, LabelUnchanged, true)
      case Returned(hands) =>
        if hands.Some? && |hands.value| > 0 then
          var count := CountFingers(hands.value[0].keypoints);
          Pass(page.(fingerCount := count), ShowCount(count), true)
        else Pass(page, ShowNoHand, true)
  }

  /** Hands after the first never influence a pass. */
  lemma OnlyFirstHandCounts(page: Page, hands: seq<SideHand>, others: seq<SideHand>)
    requires |hands| > 0 && |others| > 0 && hands[0] == others[0]
    ensures DetectHands(page, Returned(Some(hands))) == DetectHands(page, Returned(Some(others)))
  {
  }
}

=== FILE: slide_client.dfy ===
/**
  The browser classifier of `static/js/client_slide_implementation.js`: the
  same rule as the Python scripts, written with a running counter. It indexes
  `landmarks` without any guard, so a hand must carry all 21 landmarks.
 */
module SlideClient {
  import opened Landmarks

  /** The `for (const tip of fingerTips)` loop: adds one to `fingerCount`
      for every raised tip of `tips`. */
  function CountFrom(landmarks: Hand, tips: seq<nat>, fingerCount: nat): (n: nat)
    requires TipsInRange(|landmarks|, tips)
    ensures fingerCount <= n <= fingerCount + |tips|
    ensures n == fingerCount + CountTrue(Raised(landmarks, tips))
    decreases |tips|
  {
    if tips == [] then fingerCount
    else
      assert Raised(landmarks, tips)[1..] == Raised(landmarks, tips[1..]);
      CountFrom(landmarks, tips[1..],
                if TipRaised(landmarks, tips[0]) then fingerCount + 1 else fingerCount)
  }

  /** `countFingers(landmarks)`: the thumb test, then the four-finger loop. */
  function CountFingers(landmarks: Hand): (n: nat)
    requires Complete(landmarks)
    ensures n <= 5
    ensures n == CountTrue(Extended(landmarks))
  {
    FingerTipsInRange(landmarks);
    CountFrom(landmarks, FingerTips, if ThumbOpen(landmarks) then 1 else 0)
  }

  /** What `await detector.estimateHands(videoElement)` gives a pass: the
      promise rejects, or it resolves to the detected hands. */
  datatype Estimate = Rejected | Resolved(hands: seq<Hand>)

  /** What a pass writes to the finger-count element: nothing, "No hand
      detected", or the count of the first hand. */
  datatype Shown = Unchanged | NoHand | Fingers(count: nat)

  /** The visible effect of one pass, and whether it requested the next frame. */
  datatype Pass = Pass(shown: Shown, rescheduled: bool)

  /** The first hand of a resolved estimate, if any, can be classified:
      `countFingers` indexes its landmarks without a guard. */
  predicate Classifiable(estimate: Estimate) {
    estimate.Resolved? && |estimate.hands| > 0 ==> Complete(estimate.hands[0])
  }

  /** One pass of `detectHands`. Before the detector exists it returns at once.
      A rejected estimate escapes the function (there is no try/catch), so the
      label keeps its text and `requestAnimationFrame` is never reached.
      Otherwise only `hands[0]` is classified, and the pass reschedules. */
  function DetectHands(detectorReady: bool, estimate: Estimate): (r: Pass)
    requires detectorReady ==> Classifiable(estimate)
    ensures r.rescheduled <==> detectorReady && estimate.Resolved?
    ensures r.shown == Unchanged <==> !r.rescheduled
    ensures r.shown == NoHand <==> detectorReady && estimate == Resolved([])
    ensures detectorReady && estimate.Resolved? && |estimate.hands| > 0 ==>
              r.shown.Fingers? && r.shown.count <= 5 &&
              r.shown.count == CountTrue(Extended(estimate.hands[0]))
  {
    if !detectorReady then Pass(Unchanged, false)
    else match estimate
      case Rejected => Pass(Unchanged, false)
      case Resolved(hands) =>
        if |hands| > 0 then Pass(Fingers(CountFingers(hands[0])), true)
        else Pass(NoHand, true)
  }

  /** Hands after the first never influence what a pass shows. */
  lemma OnlyFirstHandCounts(detectorReady: bool, hands: seq<Hand>, others: seq<Hand>)
    requires |hands| > 0 && |others| > 0 && hands[0] == others[0]
    requires Complete(hands[0])
    ensures DetectHands(detectorReady, Resolved(hands)) == DetectHands(detectorReady, Resolved(others))
  {
  }

  /** How many passes the `requestAnimationFrame` chain that `main` starts
      runs, given one estimate per pass: it runs until a pass does not
      reschedule, so it ends at the first rejected estimate. */
  function Passes(estimates: seq<Estimate>): (n: nat)
    requires forall j :: 0 <= j < |estimates| ==> Classifiable(estimates[j])
    ensures n <= |estimates|
    ensures estimates != [] ==> n > 0
    ensures forall j :: 0 <= j < n - 1 ==> estimates[j].Resolved?
    ensures n < |estimates| ==> estimates[n - 1].Rejected?
    decreases |estimates|
  {
    if estimates == [] then 0
    else if DetectHands(true, estimates[0]).rescheduled then 1 + Passes(estimates[1..])
    else 1
  }

  /** The labels the chain's passes write, in order. A pass writes nothing
      exactly when its estimate was rejected, and a chain that stops early
      ends with such a pass. */
  function Chain(estimates: seq<Estimate>): (shown: seq<Shown>)
    requires forall j :: 0 <= j < |estimates| ==> Classifiable(estimates[j])
    ensures |shown| == Passes(estimates)
    ensures forall j :: 0 <= j < |shown| ==> (shown[j] == Unchanged <==> estimates[j].Rejected?)
    ensures |shown| < |estimates| ==> shown[|shown| - 1] == Unchanged
  {
    seq(Passes(estimates), j requires 0 <= j < Passes(estimates) => DetectHands(true, estimates[j]).shown)
  }

  /** The first rejection is the chain's last pass: it leaves the label as it was. */
  lemma RejectionEndsChain(estimates: seq<Estimate>, k: nat)
    requires forall j :: 0 <= j < |estimates| ==> Classifiable(estimates[j])
    requires k < |estimates| && estimates[k].Rejected?
    requires forall j :: 0 <= j < k ==> estimates[j].Resolved?
    ensures |Chain(estimates)| == k + 1
    ensures Chain(estimates)[k] == Unchanged
  {
  }

  /** While every estimate resolves, every pass runs and writes a label. */
  lemma ChainRunsWhileResolved(estimates: seq<Estimate>)
    requires forall j :: 0 <= j < |estimates| ==> Classifiable(estimates[j])
    requires forall j :: 0 <= j < |estimates| ==> estimates[j].Resolved?
    ensures |Chain(estimates)| == |estimates|
    ensures forall j :: 0 <= j < |estimates| ==> Chain(estimates)[j] != Unchanged
  {
  }
}

=== FILE: stream.dfy ===
/**
  The `/video_feed` stream of `app.py`: `generate` re-encodes the latest
  published frame and frames each JPEG payload as one body part of a
  `multipart/x-mixed-replace` response whose boundary is `frame`.
 */
module Stream {
  import opened Optional

  newtype byte = b: int | 0 <= b < 256

  /** The byte encoding of a string of ASCII characters. */
  function Ascii(s: string): (r: seq<byte>)
    requires forall i :: 0 <= i < |s| ==> s[i] as int < 128
    ensures |r| == |s|
    ensures forall i :: 0 <= i < |s| ==> r[i] as int == s[i] as int
  {
    seq(|s|, i requires 0 <= i < |s| => s[i] as int as byte)
  }

  /** The boundary declared in the response's content type. */
  const Boundary: string := "frame"
  const MimeType: string := "multipart/x-mixed-replace; boundary=" + Boundary
  const Crlf: string := "\r\n"
  /** A boundary delimiter line (section 5.1.1 of RFC 2046): two hyphens, then the boundary. */
  const Delimiter: string := "--" + Boundary
  /** Everything a part carries before its payload. */
  const PartHeader: string := Delimiter + Crlf + "Content-Type: image/jpeg" + Crlf + Crlf

  /** The framing constants: their lengths, the delimiter line opening the
      part header, the boundary closing the content type, and ASCII only. */
  lemma HeaderFacts()
    ensures |PartHeader| == 37 && |Crlf| == 2 && |Delimiter| == 7
    ensures PartHeader[..|Delimiter| + 2] == Delimiter + Crlf
    ensures MimeType[|MimeType| - |Boundary|..] == Boundary
    ensures forall i :: 0 <= i < |PartHeader| ==> PartHeader[i] as int < 128
    ensures forall i :: 0 <= i < |Crlf| ==> Crlf[i] as int < 128
  {
  }

  /** The bytes `generate` yields for one encoded image. */
  function Chunk(payload: seq<byte>): (c: seq<byte>)
    ensures |c| == |payload| + 39
    ensures c[..|Delimiter| + 2] == Ascii(Delimiter + Crlf)
    ensures c[..37] == Ascii(PartHeader)
    ensures c[37..|c| - 2] == payload
    ensures c[|c| - 2..] == Ascii(Crlf)
  {
    HeaderFacts();
    Ascii(PartHeader) + payload + Ascii(Crlf)
  }

  /** Reads a chunk back: the payload between the part header and the final CRLF. */
  function ParseChunk(c: seq<byte>): (payload: Option<seq<byte>>)
    ensures payload.Some? ==> |c| == |payload.value| + 39
  {
    HeaderFacts();
    if |c| >= 39 && c[..37] == Ascii(PartHeader) && c[|c| - 2..] == Ascii(Crlf)
    then Some(c[37..|c| - 2])
    else None
  }

  /** Framing loses nothing: the payload is recovered unchanged. */
  lemma ParseChunkInvertsChunk(payload: seq<byte>)
    ensures ParseChunk(Chunk(payload)) == Some(payload)
  {
  }

  /** Every byte string that parses is the chunk of its payload. */
  lemma ChunkInvertsParseChunk(c: seq<byte>)
    requires ParseChunk(c).Some?
    ensures Chunk(ParseChunk(c).value) == c
  {
  }

  /** One pass of the `generate` loop, given the published frame (`None`
      until the capture thread publishes one) and the JPEG encoder, which
      may fail. Nothing is emitted when there is no frame or encoding fails. */
  function Tick<F>(latest: Option<F>, encode: F -> Option<seq<byte>>): (out: Option<seq<byte>>)
    ensures out.Some? <==> latest.Some? && encode(latest.value).Some?
    ensures out.Some? ==> ParseChunk(out.value) == encode(latest.value)
  {
    match latest
    case None => None
    case Some(frame) =>
      match encode(frame)
      case None => None
      case Some(payload) =>
        ParseChunkInvertsChunk(payload);
        Some(Chunk(payload))
  }

  /** The images that encode successfully over a run of passes, in order. */
  function Encoded<F>(observed: seq<Option<F>>, encode: F -> Option<seq<byte>>): seq<seq<byte>>
    decreases |observed|
  {
    if observed == [] then []
    else if observed[0].Some? && encode(observed[0].value).Some?
    then [encode(observed[0].value).value] + Encoded(observed[1..], encode)
    else Encoded(observed[1..], encode)
  }

  /** The chunks `generate` yields over a run of passes, one published-frame
      observation per pass: one framed chunk per successfully encoded image,
      in order, and nothing else. */
  function Generate<F>(observed: seq<Option<F>>, encode: F -> Option<seq<byte>>): (chunks: seq<seq<byte>>)
    ensures |chunks| <= |observed|
    ensures |chunks| == |Encoded(observed, encode)|
    ensures forall j :: 0 <= j < |chunks| ==> ParseChunk(chunks[j]) == Some(Encoded(observed, encode)[j])
    decreases |observed|
  {
    if observed == [] then []
    else
      var rest := Generate(observed[1..], encode);
      match Tick(observed[0], encode)
      case None => rest
      case Some(c) => [c] + rest
  }

  /** Until a frame has been published, `generate` yields nothing. */
  lemma {:induction false} NothingBeforeFirstFrame<F>(observed: seq<Option<F>>, encode: F -> Option<seq<byte>>)
    requires forall j :: 0 <= j < |observed| ==> observed[j].None?
    ensures Generate(observed, encode) == []
  {
    if observed != [] {
      NothingBeforeFirstFrame(observed[1..], encode);
    }
  }

  /** With a frame published and an encoder that never fails, every pass
      yields exactly one chunk. */
  lemma {:induction false} OneChunkPerPass<F>(observed: seq<Option<F>>, encode: F -> Option<seq<byte>>)
    requires forall j :: 0 <= j < |observed| ==> observed[j].Some? && encode(observed[j].value).Some?
    ensures |Generate(observed, encode)| == |observed|
  {
    if observed != [] {
      OneChunkPerPass(observed[1..], encode);
    }
  }
}
